=== FILE: README.md ===
# Game-client plugin logic, modelled in Dafny

This project models the pure logic inside three plugins for a third-party
game client. The rest of those plugins is glue around the host client's
events, widgets and panels, and is not modelled.

- **Inventory setups** (`InventorySetups`, `SetupList`). A setup is a saved
  snapshot of the 28 inventory slots, the 14 equipment slots and, optionally,
  the three rune-pouch slots. The model covers:
  - padding a live container to its fixed slot count;
  - the item-equivalence rules used by the bank filter. An id is
    canonicalised, variation-mapped unless variation differences are
    highlighted, then looked up in the rune pouch, inventory and equipment;
  - the rune-pouch placement rules applied when one slot is replaced;
  - the clamp applied to a typed quantity;
  - the list of setups: move up or down, filter by name, and add. Adding
    re-sorts the list by name, ignoring case.
- **Flipping utilities** (`Flipping`). Grand Exchange (GE) offer-change
  events are filtered. Repeated cancelled-buy events are dropped. Accepted
  events become trades at an integer price per item. Trades are folded into
  a most-recent-first list of per-item records: at most 200 records, one per
  item id, and each margin-check history cut back to 20 entries.
- **Skills-tab progress bars** (`SkillsTab`). A table maps the 24 widget
  ids of the skills tab to skills. Each skill's progress towards its next
  level is stored in a map.

The host's lookups are parameters of every member that uses them, so each
property holds for any table the host could supply. These lookups are item
canonicalisation, variation mapping, item names, the rune table, GE limits,
the experience table and `FlippingItem.addTradeHistory`. The plugin state an
event handler changes is an explicit record, threaded through the call, and
the clock is a parameter.

Adding a setup does not insert it into a sorted list: it appends it and
re-sorts the whole list. After a setup has been moved up or down the list
is no longer sorted, and the next add sorts all of it again (`AddSetup`).

Two observations from the model:
- Only the margin-check path (`UpdateFlip`) trims an item's trade history to
  20 entries. A trade of any other quantity on a known item goes to
  `FlippingItem.addTradeHistory`, which this model takes as a host
  parameter. The history stays bounded only if that method trims it, and
  that method is not part of this model (`AddFlipTrade`, third ensures).
- The bank filter maps the rune-pouch slots through the variation table
  even when the setup highlights variation differences, but it does not map
  the query. `PouchRunePassesFilter` is proved for setups with variation
  differences off. `PouchRuneCanMissFilterWithVariations` gives host tables
  under which a saved pouch rune fails the filter when they are on.

## Model

| member | source | states |
|---|---|---|
| `Common.JavaDiv` | flippingutilities/src/main/java/net/runelite/client/plugins/flippingutilities/FlippingPlugin.java:275 | Java integer division rounds toward zero: the quotient's magnitude is the largest one whose product with the divisor's magnitude does not exceed the dividend's magnitude, and the quotient is negative only when the operands' signs differ |
| `InventorySetups.NormalizedContainer` | inventorysetups/src/main/java/net/runelite/client/plugins/inventorysetups/InventorySetupPlugin.java:751-790 | the result has exactly 28 slots for the inventory and 14 for equipment; slot i carries live item i's id and quantity when it exists, and is the dummy (-1, "", 0) otherwise, including when the container is missing; names are looked up only on the client thread |
| `InventorySetups.RunePouchData` | inventorysetups/src/main/java/net/runelite/client/plugins/inventorysetups/InventorySetupPlugin.java:419-434 | three slots; a rune id the rune table does not know gives the dummy slot, and a known rune gives its item id, its name and the amount varbit |
| `InventorySetups.CorrectId` | inventorysetups/src/main/java/net/runelite/client/plugins/inventorysetups/InventorySetupPlugin.java:977-992 | canonicalisation is applied only when asked for; variation mapping is applied exactly when variation differences are off, after canonicalisation |
| `InventorySetups.ContainerContainsItem` | inventorysetups/src/main/java/net/runelite/client/plugins/inventorysetups/InventorySetupPlugin.java:964-975 | the scan is true if and only if some slot's corrected id equals the query |
| `InventorySetups.SetupContainsItem` | inventorysetups/src/main/java/net/runelite/client/plugins/inventorysetups/InventorySetupPlugin.java:938-962 | with the query normalised like a slot, the result is true if and only if a present rune pouch holds it (pouch slots always variation-mapped), or the inventory does, or the equipment does |
| `InventorySetups.SavedItemPassesFilter` | inventorysetups/src/main/java/net/runelite/client/plugins/inventorysetups/InventorySetupPlugin.java:938-962 | for any host tables, every item saved in a setup's inventory or equipment passes that setup's bank filter |
| `InventorySetups.PouchRunePassesFilter` | inventorysetups/src/main/java/net/runelite/client/plugins/inventorysetups/InventorySetupPlugin.java:950-957 | with variation differences off, every rune saved in the pouch passes the bank filter |
| `InventorySetups.PouchRuneCanMissFilterWithVariations` | inventorysetups/src/main/java/net/runelite/client/plugins/inventorysetups/InventorySetupPlugin.java:938-962 | with variation differences highlighted, some host tables make a saved pouch rune fail the bank filter, since only the pouch slot is variation-mapped |
| `InventorySetups.UpdateIfRunePouch` | inventorysetups/src/main/java/net/runelite/client/plugins/inventorysetups/InventorySetupPlugin.java:994-1036 | the update is rejected, with the setup unchanged, exactly when a pouch is put outside the inventory, or put in while the setup already has one and the replaced item is not a pouch; an accepted pouch stores the fresh pouch data; a pouch replaced by a non-pouch clears it; only the pouch field ever changes |
| `InventorySetups.ApplySlotUpdate` | inventorysetups/src/main/java/net/runelite/client/plugins/inventorysetups/InventorySetupPlugin.java:539-550 | a rejected update leaves the setup unchanged; an accepted one puts the new item in the slot and keeps the container's length, every other slot, the other container and every field except the rune pouch, which is the one the pouch check produced |
| `InventorySetups.SlotUpdatePreservesPouchConsistency` | inventorysetups/src/main/java/net/runelite/client/plugins/inventorysetups/InventorySetupPlugin.java:994-1036 | slot updates keep a setup consistent: no pouch in the equipment, at most one in the inventory, and pouch data present exactly when the inventory holds the pouch |
| `InventorySetups.TruncateInput` | inventorysetups/src/main/java/net/runelite/client/plugins/inventorysetups/InventorySetupPlugin.java:601-605 | the parsed text is the input's prefix of length min(|input|, 10): the whole input when it has at most 10 characters, and exactly its first 10 otherwise |
| `InventorySetups.ParseLong` | inventorysetups/src/main/java/net/runelite/client/plugins/inventorysetups/InventorySetupPlugin.java:608 | a parsed value lies in the long range; a non-empty digit string within that range parses to its decimal value; the empty string does not parse |
| `Common.IntCast` | inventorysetups/src/main/java/net/runelite/client/plugins/inventorysetups/InventorySetupPlugin.java:609 | Java's `(int)` narrowing of a long: the result lies in the int range, differs from the argument by a multiple of 2^32, and equals the argument when it is already an int |
| `InventorySetups.ClampQuantity` | inventorysetups/src/main/java/net/runelite/client/plugins/inventorysetups/InventorySetupPlugin.java:607-610 | the stored quantity lies in [1, Integer.MAX_VALUE]: a value in range is kept, larger values become Integer.MAX_VALUE, values in [Integer.MIN_VALUE, 0] become 1, and a long below Integer.MIN_VALUE is wrapped by the `(int)` cast to a value congruent modulo 2^32 or else becomes 1 |
| `InventorySetups.TypedQuantity` | inventorysetups/src/main/java/net/runelite/client/plugins/inventorysetups/InventorySetupPlugin.java:601-610 | a quantity results exactly when the truncated text parses, and it always lies in [1, Integer.MAX_VALUE]; a parsed value of 0 or less stores 1; for digit-only input the quantity is the value of its first min(|input|, 10) characters, capped at Integer.MAX_VALUE and raised to 1 |
| `InventorySetups.ParsedQuantityAboveIntMin` | inventorysetups/src/main/java/net/runelite/client/plugins/inventorysetups/InventorySetupPlugin.java:601-609 | any text of at most ten characters parses to no less than -999,999,999, so the `(int)` cast never wraps a typed amount |
| `InventorySetups.TruncatedDigitsFitLong` | inventorysetups/src/main/java/net/runelite/client/plugins/inventorysetups/InventorySetupPlugin.java:601-608 | the first ten characters of a digit-only input are digits whose value is below 10^10, inside the long range |
| `InventorySetups.DigitInputAlwaysParses` | inventorysetups/src/main/java/net/runelite/client/plugins/inventorysetups/InventorySetupPlugin.java:597-610 | any non-empty digit-only input, whatever its length, yields a quantity (ten digits never overflow a long) |
| `InventorySetups.TypedQuantityRoundTrip` | inventorysetups/src/main/java/net/runelite/client/plugins/inventorysetups/InventorySetupPlugin.java:601-610 | typing the decimal form of any quantity in [1, Integer.MAX_VALUE] stores exactly that quantity |
| `SetupList.MoveSetupDown` | inventorysetups/src/main/java/net/runelite/client/plugins/inventorysetups/InventorySetupPlugin.java:306-320 | swaps the setup with its successor and changes nothing else; length and multiset are unchanged; the last setup stays put |
| `SetupList.MoveSetupUp` | inventorysetups/src/main/java/net/runelite/client/plugins/inventorysetups/InventorySetupPlugin.java:322-336 | swaps the setup with its predecessor and changes nothing else; length and multiset are unchanged; the first setup stays put |
| `SetupList.MoveDownThenUp` | inventorysetups/src/main/java/net/runelite/client/plugins/inventorysetups/InventorySetupPlugin.java:306-336 | moving a setup down and then back up restores the list |
| `SetupList.FilterSetups` | inventorysetups/src/main/java/net/runelite/client/plugins/inventorysetups/InventorySetupPlugin.java:338-344 | every kept setup's lower-cased name contains the lower-cased filter; every matching setup is kept; nothing else appears |
| `SetupList.ToLower` | inventorysetups/src/main/java/net/runelite/client/plugins/inventorysetups/InventorySetupPlugin.java:340-342 | String.toLowerCase on ASCII letters: the result has the input's length, each character is the input's character folded by `LowerChar`, and no ASCII capital remains |
| `SetupList.ToLowerIdempotent` | inventorysetups/src/main/java/net/runelite/client/plugins/inventorysetups/InventorySetupPlugin.java:340-342 | lower-casing an already lower-cased name changes nothing |
| `SetupList.ContainsFromMeansOccurrence` | inventorysetups/src/main/java/net/runelite/client/plugins/inventorysetups/InventorySetupPlugin.java:338-344 | the left-to-right scan behind String.contains succeeds exactly when the needle occurs at some position from the scan's start on |
| `SetupList.FilterIsOrderedSelection` | inventorysetups/src/main/java/net/runelite/client/plugins/inventorysetups/InventorySetupPlugin.java:338-344 | the filtered list equals the setups picked at the matching positions, listed in increasing order: nothing matching is dropped, nothing else is kept, and the saved order is kept |
| `SetupList.EmptyFilterKeepsAll` | inventorysetups/src/main/java/net/runelite/client/plugins/inventorysetups/InventorySetupPlugin.java:338-344 | an empty filter returns every setup, in order |
| `SetupList.CompareIgnoreCase` | inventorysetups/src/main/java/net/runelite/client/plugins/inventorysetups/InventorySetupPlugin.java:930 | String.compareToIgnoreCase, defined by its body (first differing folded character, else the length difference); its contract states that the comparison is 0 exactly when the two names are equal after folding; antisymmetry and transitivity are `CompareAntisymmetric` and `CompareTransitive` |
| `SetupList.CompareAntisymmetric` | inventorysetups/src/main/java/net/runelite/client/plugins/inventorysetups/InventorySetupPlugin.java:929-930 | the case-insensitive name comparison is antisymmetric: swapping its arguments negates it |
| `SetupList.CompareTransitive` | inventorysetups/src/main/java/net/runelite/client/plugins/inventorysetups/InventorySetupPlugin.java:929-930 | the case-insensitive name order is transitive |
| `SetupList.InsertKeepsSorted` | inventorysetups/src/main/java/net/runelite/client/plugins/inventorysetups/InventorySetupPlugin.java:929-930 | inserting a setup into a name-sorted list keeps it sorted |
| `SetupList.SortByName` | inventorysetups/src/main/java/net/runelite/client/plugins/inventorysetups/InventorySetupPlugin.java:929-930 | the sorted list is a permutation of the input, sorted by name ignoring case |
| `SetupList.AddSetup` | inventorysetups/src/main/java/net/runelite/client/plugins/inventorysetups/InventorySetupPlugin.java:924-936 | the list grows by exactly one, keeps every old setup (as a multiset, plus the new one) and is sorted by name ignoring case |
| `Flipping.TradeConstructor` | flippingutilities/src/main/java/net/runelite/client/plugins/flippingutilities/FlippingPlugin.java:270-280 | the trade is a buy if and only if the offer is BOUGHT or CANCELLED_BUY; its quantity is the quantity sold; its price is spent divided by quantity, truncated, so for a non-negative spend price × quantity ≤ spent < (price + 1) × quantity |
| `Flipping.FindItem` | flippingutilities/src/main/java/net/runelite/client/plugins/flippingutilities/FlippingPlugin.java:291-293 | finds the first record with the item id, and finds nothing if and only if no record has it |
| `Flipping.NewFlippingItem` | flippingutilities/src/main/java/net/runelite/client/plugins/flippingutilities/FlippingPlugin.java:318-348 | a new record holds just the trade. A single-item buy sets the sell price and time only, a single-item sell sets the buy price and time only, and any other quantity sets neither. The GE limit is 0 when the item has no stats |
| `Flipping.AddToTradesList` | flippingutilities/src/main/java/net/runelite/client/plugins/flippingutilities/FlippingPlugin.java:318-357 | the new record goes to index 0 and the old records follow; when the list exceeds 200 the last one is dropped, so a list of at most 200 stays so |
| `Flipping.UpdateFlip` | flippingutilities/src/main/java/net/runelite/client/plugins/flippingutilities/FlippingPlugin.java:360-384 | a buy changes only the latest sell price and time, and a sell only the latest buy price and time. The history gains the trade and loses its last entry when over 20, so it stays within 20 if `addTradeHistory` adds one trade |
| `Flipping.MoveToFrontKeepsIdsUnique` | flippingutilities/src/main/java/net/runelite/client/plugins/flippingutilities/FlippingPlugin.java:305-307 | moving a record to the front under the same id keeps item ids unique |
| `Flipping.AddFlipTrade` | flippingutilities/src/main/java/net/runelite/client/plugins/flippingutilities/FlippingPlugin.java:283-315 | an unseen item gets a new front record. A single-item trade of a known item updates that record and moves it to the front, keeping the length and the order of the others. Any other trade only extends that record's history, in place. The item is in the list afterwards |
| `Flipping.AddFlipTradeKeepsListValid` | flippingutilities/src/main/java/net/runelite/client/plugins/flippingutilities/FlippingPlugin.java:283-357 | folding in a trade keeps the list at most 200 long with unique item ids |
| `Flipping.OnOfferChanged` | flippingutilities/src/main/java/net/runelite/client/plugins/flippingutilities/FlippingPlugin.java:223-268 | the state is unchanged when any of these holds: the item id is 0, the login screen is shown, the offer state is not BOUGHT/SOLD/CANCELLED_BUY, nothing was traded, or the event repeats the saved cancelled buy for the same slot. Otherwise a cancelled buy becomes the saved offer and slot. Only recorded offers change the list, and a SOLD offer of quantity above 1 never does |
| `Flipping.RepeatedCancelHandledOnce` | flippingutilities/src/main/java/net/runelite/client/plugins/flippingutilities/FlippingPlugin.java:240-250 | delivering the same cancelled-buy event twice has the effect of delivering it once |
| `Flipping.OfferEventKeepsListValid` | flippingutilities/src/main/java/net/runelite/client/plugins/flippingutilities/FlippingPlugin.java:223-268 | every offer event keeps the trades list at most 200 long with unique item ids |
| `SkillsTab.WidgetIdOf` | skillstabprogressbars/src/main/java/net/runelite/client/plugins/skillstabprogressbars/SkillsTabProgressBarsPlugin.java:146-193 | every skill, OVERALL included, has a widget id in 20971521..20971544 |
| `SkillsTab.SkillFromWidgetId` | skillstabprogressbars/src/main/java/net/runelite/client/plugins/skillstabprogressbars/SkillsTabProgressBarsPlugin.java:141-197 | a skill is returned exactly for ids 20971521..20971544 and none for every other id; the returned skill's widget id is the argument |
| `SkillsTab.WidgetTableIsBijective` | skillstabprogressbars/src/main/java/net/runelite/client/plugins/skillstabprogressbars/SkillsTabProgressBarsPlugin.java:146-193 | the table is injective on its 24 ids and reaches every skill, so 24 ids map to 24 distinct skills |
| `SkillsTab.OnlyLastWidgetIsOverall` | skillstabprogressbars/src/main/java/net/runelite/client/plugins/skillstabprogressbars/SkillsTabProgressBarsPlugin.java:192-193 | OVERALL is returned for id 20971544 and for no other id |
| `SkillsTab.ProgressToLevel` | skillstabprogressbars/src/main/java/net/runelite/client/plugins/skillstabprogressbars/SkillsTabProgressBarsPlugin.java:98-107 | progress is exactly 1 when the level is ≤ 0 or ≥ 99. Otherwise progress × (xpFor(level+1) − xpFor(level)) = xp − xpFor(level), and the progress lies in [0, 1) when xp lies within the level's band |
| `SkillsTab.StoreProgress` | skillstabprogressbars/src/main/java/net/runelite/client/plugins/skillstabprogressbars/SkillsTabProgressBarsPlugin.java:98-109 | only the updated skill's entry is written; every other entry is unchanged |
| `SkillsTab.StoreProgressForAllSkills` | skillstabprogressbars/src/main/java/net/runelite/client/plugins/skillstabprogressbars/SkillsTabProgressBarsPlugin.java:85-96 | every skill except OVERALL gets its progress entry; OVERALL's entry, present or absent, is left as it was |

## Left out

- Persistence through the host's config store and Gson is not modelled. This covers `updateJsonConfig`, `loadConfig` (with the legacy map migration), `exportSetup`/`importSetup`, and the flipping `updateConfig`/`loadConfig`. They depend on library serialisation.
- Host interaction is not modelled. This covers dialogs, the clipboard, navigation buttons, overlays, hotkeys, menu-entry insertion, widget sprites, hover listeners, panel rebuilds and the script-callback int-stack writes. The bank filter's decision itself is `SetupContainsItem`.
- Thread hand-offs are not modelled: `clientThread.invokeLater`, `SwingUtilities.invokeLater`, the scheduled timer and the tick wait of the filter hotkey. Each modelled operation is one sequential step.
- Time-dependent behaviour is not modelled. The clock is the `now` parameter. `updateGELimitReset` and `updateGELimitRemaining` belong to `FlippingItem`, which is not part of this model.
- Host lookups are parameters, not tables. This covers item canonicalisation, variation mapping, item names, the rune table, item stats, `Experience.getXpForLevel` and `FlippingItem.addTradeHistory`. `FlippingItem`'s fifth and tenth constructor arguments (0 and null) are not modelled, because the class is not part of this model.
- The `tradesList == null` branch of `addFlipTrade` is not modelled: it would dereference null. The list is always present.
- The login-screen check is the `onLoginScreen` parameter of `OnOfferChanged`.
- The saved offer is a snapshot of the offer. The host object it refers to could change later; the model ignores that.
- Only the inventory and equipment slot kinds are modelled. Any other slot id is not part of this model.
- `addInventorySetup`, `updateCurrentSetup`, `removeInventorySetup` and `doBankSearch` are not modelled. They only combine the modelled operations with dialogs and persistence.
- The probability-calculator panel is layout only.
- LowerChar: folds only the ASCII capitals. Java's `toLowerCase` and `compareToIgnoreCase` fold every Unicode letter, so `FilterSetups` and `CompareIgnoreCase` agree with Java only on ASCII names. `FilterSetups` also assumes a default locale that lower-cases ASCII letters plainly: `toLowerCase()` takes no locale argument, and under a Turkish or Azeri default locale 'I' becomes a dotless 'ı', which the model does not follow. `compareToIgnoreCase` does not depend on the locale.
- ParseLong: accepts only ASCII digits. Java's parser also accepts other Unicode decimal digits, but the input's character validator admits only '0'..'9'.
- AddSetup: proves a sorted permutation, not stability. Java's sort is stable, and the insertion sort modelled here is stable too, but that is not proved.
- SortByName: the same gap as `AddSetup`, which it implements. Its contract states a sorted permutation, not stability.
- MoveSetupDown: takes the setup's position, where Java looks it up with `indexOf(setup)` (lines 308 and 324). `InventorySetup`'s equality is not part of this model, so setups are identified by position. The same holds for `MoveSetupUp`.
- ProgressToLevel: requires the experience table to increase strictly over levels 1..99, as the host's table does. For a flat table Java would store Infinity or NaN, which `real` cannot represent. IEEE double rounding is not modelled.
- TradeConstructor: requires a positive quantity sold. Both call sites guarantee at least 1. Java `int` fields are modelled as unbounded integers; this division cannot overflow.
- UpdateFlip: the 20-entry history bound is stated only for an `addTradeHistory` that adds exactly one trade. That method is not part of this model.
- `RUNE_POUCH` (12791), `MAX_REAL_LEVEL` (99) and the `Skill` enum (its 24 values and their declaration order, which `ALL_SKILLS` lists) come from the host API. They are not defined in the modelled files.

=== FILE: common.dfy ===
/**
 Small shared vocabulary for the plugin models: an optional value (the
 source's nullable references) and the Java integer operations whose
 semantics differ from Dafny's.
 */
module Common {

  /** A Java reference that may be null. */
  datatype Option<+T> = None | Some(value: T)

  /** Integer.MAX_VALUE */
  const INT_MAX: int := 0x7fff_ffff

  /** Integer.MIN_VALUE */
  const INT_MIN: int := -0x8000_0000

  /** The size of the 32-bit int range. */
  const TWO_TO_32: int := 0x1_0000_0000

  /** Java's `(int)` narrowing of a long: the low 32 bits, read as a
      two's-complement int. */
  function IntCast(x: int): (r: int)
    ensures INT_MIN <= r <= INT_MAX
    ensures (x - r) % TWO_TO_32 == 0
    ensures INT_MIN <= x <= INT_MAX ==> r == x
  {
    var low := x % TWO_TO_32;
    if low > INT_MAX then low - TWO_TO_32 else low
  }

  function Abs(x: int): nat
  {
    if x < 0 then -x else x
  }

  /** The quotient of two naturals: the largest multiple of `y` not above `x`. */
  function Quotient(x: nat, y: nat): (r: nat)
    requires y > 0
    ensures y * r <= x < y * (r + 1)
  {
    x / y
  }

  /** Java's `/` on integers (section 15.17.2 of the Java Language
      Specification): the quotient is rounded toward zero, so its magnitude
      is the largest one whose product with the divisor does not exceed the
      dividend in magnitude, and it is negative only when the operands'
      signs differ. Dafny's `/` is Euclidean instead. The integers here are
      unbounded, so the one case where Java's int division overflows,
      Integer.MIN_VALUE / -1 (which Java gives as Integer.MIN_VALUE), yields
      2^31 here; the trade price divides by a positive quantity, where this
      cannot arise. */
  function JavaDiv(a: int, b: int): (q: int)
    requires b != 0
    ensures Abs(b) * Abs(q) <= Abs(a) < Abs(b) * (Abs(q) + 1)
    ensures q < 0 ==> (a < 0) != (b < 0)
    ensures (a < 0) != (b < 0) ==> q <= 0
  {
    var magnitude: int := Quotient(Abs(a), Abs(b));
    if (a < 0) == (b < 0) then magnitude else -magnitude
  }
}

=== FILE: flipping.dfy ===
/**
 Grand Exchange trade bookkeeping. Offer-change events from the host are
 filtered and de-duplicated; accepted events become trades, and trades are
 folded into a most-recent-first list of per-item records that holds at
 most 200 items, each with one record per item id.

 The plugin state the event handler reads and writes is an explicit
 `FlipState`; the clock is the `now` parameter; item names, GE buy limits
 and FlippingItem.addTradeHistory are fields of `FlipHost`.
 */
module Flipping {
  import opened Common

  /** Limit on the trade history kept per item by a margin check. */
  const TRADE_HISTORY_MAX_SIZE: nat := 20
  /** Limit on the number of items in the trades list. */
  const TRADES_LIST_MAX_SIZE: nat := 200

  datatype OfferState = Empty | Buying | Bought | Selling | Sold | CancelledBuy | CancelledSell

  datatype Offer = Offer(itemId: int, state: OfferState, quantitySold: int, spent: int)

  /** A GrandExchangeOfferChanged event: the offer and its GE slot. */
  datatype OfferEvent = OfferEvent(offer: Offer, slot: int)

  /** A point in time, as read from the clock. */
  datatype Instant = Instant(epochMillis: int)

  datatype Trade = Trade(isBuy: bool, itemId: int, price: int, quantity: int, time: Instant)

  /** The per-item record of the trades list. */
  datatype FlippingItem = FlippingItem(
    tradeHistory: seq<Trade>,
    itemId: int,
    itemName: string,
    geLimit: int,
    latestBuyPrice: int,
    latestSellPrice: int,
    latestBuyTime: Option<Instant>,
    latestSellTime: Option<Instant>
  )

  /** Lookups and record updates this model leaves unspecified. */
  datatype FlipHost = FlipHost(
    itemName: int -> string,                             // item definition name
    geLimitOf: int -> Option<int>,                       // item stats' GE limit, None when there are no stats
    addTradeHistory: (seq<Trade>, Trade) -> seq<Trade>   // FlippingItem.addTradeHistory
  )

  datatype FlipState = FlipState(tradesList: seq<FlippingItem>, savedOffer: Option<Offer>, savedOfferSlot: int)

  // ---------------------------------------------------------------------
  // Trades list invariants

  ghost predicate UniqueItemIds(list: seq<FlippingItem>)
  {
    forall j, k :: 0 <= j < k < |list| ==> list[j].itemId != list[k].itemId
  }

  /** The shape the list keeps: bounded length and one record per item. */
  ghost predicate ValidTradesList(list: seq<FlippingItem>)
  {
    |list| <= TRADES_LIST_MAX_SIZE && UniqueItemIds(list)
  }

  /** Whether `addTradeHistory` always appends exactly one trade. */
  ghost predicate AddsOneTrade(host: FlipHost)
  {
    forall h, t :: |host.addTradeHistory(h, t)| == |h| + 1
  }

  // ---------------------------------------------------------------------
  // Trades

  /** The trade an accepted offer stands for: a buy for BOUGHT and
      CANCELLED_BUY offers, at the integer price per item. */
  function TradeConstructor(offer: Offer, now: Instant): (t: Trade)
    requires offer.quantitySold > 0
    ensures t.isBuy <==> offer.state == Bought || offer.state == CancelledBuy
    ensures t.itemId == offer.itemId && t.quantity == offer.quantitySold && t.time == now
    ensures t.price == JavaDiv(offer.spent, offer.quantitySold)
    ensures offer.spent >= 0 ==>
              t.price * offer.quantitySold <= offer.spent < (t.price + 1) * offer.quantitySold
  {
    var price := JavaDiv(offer.spent, offer.quantitySold);
    Trade(offer.state == Bought || offer.state == CancelledBuy, offer.itemId, price, offer.quantitySold, now)
  }

  /** The first position holding a record for `itemId`. */
  function FindItem(list: seq<FlippingItem>, itemId: int, from: nat): (r: Option<nat>)
    requires from <= |list|
    ensures r.None? <==> forall k :: from <= k < |list| ==> list[k].itemId != itemId
    ensures r.Some? ==> from <= r.value < |list| && list[r.value].itemId == itemId &&
                        forall k :: from <= k < r.value ==> list[k].itemId != itemId
    decreases |list| - from
  {
    if from == |list| then None
    else if list[from].itemId == itemId then Some(from)
    else FindItem(list, itemId, from + 1)
  }

  /** The record created for an item seen for the first time. A single
      item bought sets the latest sell price (the margin's high end) and a
      single item sold the latest buy price; any other quantity sets
      neither. */
  function NewFlippingItem(host: FlipHost, trade: Trade): (item: FlippingItem)
    ensures item.tradeHistory == [trade] && item.itemId == trade.itemId
    ensures item.itemName == host.itemName(trade.itemId)
    ensures item.geLimit == (if host.geLimitOf(trade.itemId).Some? then host.geLimitOf(trade.itemId).value else 0)
    ensures trade.quantity == 1 && trade.isBuy ==>
              item.latestSellPrice == trade.price && item.latestSellTime == Some(trade.time) &&
              item.latestBuyPrice == 0 && item.latestBuyTime == None
    ensures trade.quantity == 1 && !trade.isBuy ==>
              item.latestBuyPrice == trade.price && item.latestBuyTime == Some(trade.time) &&
              item.latestSellPrice == 0 && item.latestSellTime == None
    ensures trade.quantity != 1 ==>
              item.latestBuyPrice == 0 && item.latestSellPrice == 0 &&
              item.latestBuyTime == None && item.latestSellTime == None
  {
    var geLimit := match host.geLimitOf(trade.itemId) case Some(l) => l case None => 0;
    var single := trade.quantity == 1;
    FlippingItem(
      [trade], trade.itemId, host.itemName(trade.itemId), geLimit,
      if single && !trade.isBuy then trade.price else 0,
      if single && trade.isBuy then trade.price else 0,
      if single && !trade.isBuy then Some(trade.time) else None,
      if single && trade.isBuy then Some(trade.time) else None)
  }

  /** Puts a new record at the front; when the list then exceeds its
      limit, its last record is dropped. */
  function AddToTradesList(host: FlipHost, list: seq<FlippingItem>, trade: Trade): (r: seq<FlippingItem>)
    ensures |r| > 0 && r[0] == NewFlippingItem(host, trade)
    ensures |list| < TRADES_LIST_MAX_SIZE ==> r[1..] == list
    ensures |list| >= TRADES_LIST_MAX_SIZE ==> r[1..] == list[..|list| - 1]
    ensures |list| <= TRADES_LIST_MAX_SIZE ==> |r| <= TRADES_LIST_MAX_SIZE
  {
    var grown := [NewFlippingItem(host, trade)] + list;
    if |grown| > TRADES_LIST_MAX_SIZE then grown[..|grown| - 1] else grown
  }

  /** Records a margin-check trade on an existing item: the history gains
      the trade and is cut back to its limit by dropping the last entry; a
      buy sets the latest sell price and time, a sell the latest buy price
      and time, and nothing else changes. */
  function UpdateFlip(host: FlipHost, item: FlippingItem, trade: Trade): (r: FlippingItem)
    ensures var added := host.addTradeHistory(item.tradeHistory, trade);
            && (|added| <= TRADE_HISTORY_MAX_SIZE ==> r.tradeHistory == added)
            && (|added| > TRADE_HISTORY_MAX_SIZE ==> r.tradeHistory == added[..|added| - 1])
    ensures AddsOneTrade(host) && |item.tradeHistory| <= TRADE_HISTORY_MAX_SIZE ==>
              |r.tradeHistory| <= TRADE_HISTORY_MAX_SIZE
    ensures r.itemId == item.itemId && r.itemName == item.itemName && r.geLimit == item.geLimit
    ensures trade.isBuy ==>
              r.latestSellPrice == trade.price && r.latestSellTime == Some(trade.time) &&
              r.latestBuyPrice == item.latestBuyPrice && r.latestBuyTime == item.latestBuyTime
    ensures !trade.isBuy ==>
              r.latestBuyPrice == trade.price && r.latestBuyTime == Some(trade.time) &&
              r.latestSellPrice == item.latestSellPrice && r.latestSellTime == item.latestSellTime
  {
    var added := host.addTradeHistory(item.tradeHistory, trade);
    var history := if |added| > TRADE_HISTORY_MAX_SIZE then added[..|added| - 1] else added;
    var withHistory := item.(tradeHistory := history);
    if trade.isBuy then withHistory.(latestSellPrice := trade.price, latestSellTime := Some(trade.time))
    else withHistory.(latestBuyPrice := trade.price, latestBuyTime := Some(trade.time))
  }

  /** The list with position `i` moved to the front as `item`. */
  function MoveToFront(list: seq<FlippingItem>, i: nat, item: FlippingItem): (r: seq<FlippingItem>)
    requires i < |list|
    ensures |r| == |list| && r[0] == item
    ensures forall k :: 0 <= k < i ==> r[k + 1] == list[k]
    ensures forall k :: i < k < |list| ==> r[k] == list[k]
  {
    [item] + (list[..i] + list[i + 1..])
  }

  /** Moving a record to the front, under the same item id, keeps ids unique. */
  lemma MoveToFrontKeepsIdsUnique(list: seq<FlippingItem>, i: nat, item: FlippingItem)
    requires i < |list| && UniqueItemIds(list) && item.itemId == list[i].itemId
    ensures UniqueItemIds(MoveToFront(list, i, item))
  {
    var r := MoveToFront(list, i, item);
    // Position k of the result came from position Origin(k) of the list.
    forall j, k | 0 <= j < k < |r|
      ensures r[j].itemId != r[k].itemId
    {
      var oj := if j == 0 then i else if j <= i then j - 1 else j;
      var ok := if k <= i then k - 1 else k;
      assert r[j].itemId == list[oj].itemId;
      assert r[k] == list[ok];
      assert oj != ok;
    }
  }

  /** Folds one trade into the trades list. An unseen item gets a new
      record at the front; a single-item trade of a known item updates its
      margins and moves it to the front; any other trade only extends the
      known item's history, where it stands. */
  function AddFlipTrade(host: FlipHost, list: seq<FlippingItem>, trade: Trade): (r: seq<FlippingItem>)
    ensures FindItem(list, trade.itemId, 0).None? ==> r == AddToTradesList(host, list, trade)
    ensures FindItem(list, trade.itemId, 0).Some? && trade.quantity == 1 ==>
              var i := FindItem(list, trade.itemId, 0).value;
              |r| == |list| && r[0] == UpdateFlip(host, list[i], trade) &&
              (forall k :: 0 <= k < i ==> r[k + 1] == list[k]) &&
              (forall k :: i < k < |list| ==> r[k] == list[k])
    ensures FindItem(list, trade.itemId, 0).Some? && trade.quantity != 1 ==>
              var i := FindItem(list, trade.itemId, 0).value;
              |r| == |list| && (forall k :: 0 <= k < |list| && k != i ==> r[k] == list[k]) &&
              r[i] == list[i].(tradeHistory := host.addTradeHistory(list[i].tradeHistory, trade))
    ensures exists k :: 0 <= k < |r| && r[k].itemId == trade.itemId
  {
    match FindItem(list, trade.itemId, 0)
    case None =>
      var r := AddToTradesList(host, list, trade);
      assert r[0].itemId == trade.itemId;
      r
    case Some(i) =>
      if trade.quantity == 1 then
        var r := MoveToFront(list, i, UpdateFlip(host, list[i], trade));
        assert r[0].itemId == trade.itemId;
        r
      else
        var r := list[i := list[i].(tradeHistory := host.addTradeHistory(list[i].tradeHistory, trade))];
        assert r[i].itemId == trade.itemId;
        r
  }

  /** Folding a trade in keeps the list within its limit and keeps one
      record per item. */
  lemma AddFlipTradeKeepsListValid(host: FlipHost, list: seq<FlippingItem>, trade: Trade)
    requires ValidTradesList(list)
    ensures ValidTradesList(AddFlipTrade(host, list, trade))
  {
    var r := AddFlipTrade(host, list, trade);
    match FindItem(list, trade.itemId, 0)
    case None =>
      assert forall k :: 1 <= k < |r| ==> r[k] == list[k - 1];
    case Some(i) =>
      if trade.quantity == 1 {
        MoveToFrontKeepsIdsUnique(list, i, UpdateFlip(host, list[i], trade));
      }
  }

  // ---------------------------------------------------------------------
  // Offer events

  /** The offer states that can complete a trade. */
  predicate IsTradeState(s: OfferState)
  {
    s == Bought || s == Sold || s == CancelledBuy
  }

  /** Events dropped before anything is looked at: an empty offer, the
      login screen, a state that completes no trade, or nothing traded. */
  predicate IsIgnored(event: OfferEvent, onLoginScreen: bool)
  {
    || event.offer.itemId == 0
    || onLoginScreen
    || !IsTradeState(event.offer.state)
    || event.offer.quantitySold == 0
  }

  /** A cancelled buy is reported several times; a repeat for the same
      slot as the saved cancelled offer is dropped. */
  predicate IsRepeatedCancel(st: FlipState, event: OfferEvent)
  {
    && event.offer.state == CancelledBuy
    && st.savedOffer.Some?
    && st.savedOffer.value.state == event.offer.state
    && st.savedOfferSlot == event.slot
  }

  /** Which accepted offers become trades: single-item buys and sells
      (margin checks), and any positive quantity that was not sold. */
  predicate IsRecorded(offer: Offer)
  {
    || ((offer.state == Bought || offer.state == Sold) && offer.quantitySold == 1)
    || (offer.quantitySold > 0 && offer.state != Sold)
  }

  /** The handler of an offer-change event, threading the plugin state. */
  function OnOfferChanged(host: FlipHost, st: FlipState, event: OfferEvent, onLoginScreen: bool, now: Instant): (st': FlipState)
    ensures IsIgnored(event, onLoginScreen) || IsRepeatedCancel(st, event) ==> st' == st
    ensures !IsIgnored(event, onLoginScreen) && event.offer.state == CancelledBuy && !IsRepeatedCancel(st, event) ==>
              st'.savedOffer == Some(event.offer) && st'.savedOfferSlot == event.slot
    ensures event.offer.state != CancelledBuy ==>
              st'.savedOffer == st.savedOffer && st'.savedOfferSlot == st.savedOfferSlot
    ensures !IsRecorded(event.offer) ==> st'.tradesList == st.tradesList
    ensures !IsIgnored(event, onLoginScreen) && !IsRepeatedCancel(st, event) && IsRecorded(event.offer) ==>
              event.offer.quantitySold > 0 &&
              st'.tradesList == AddFlipTrade(host, st.tradesList, TradeConstructor(event.offer, now))
    ensures event.offer.state == Sold && event.offer.quantitySold > 1 ==> st'.tradesList == st.tradesList
  {
    var offer := event.offer;
    if IsIgnored(event, onLoginScreen) then st
    else if IsRepeatedCancel(st, event) then st
    else
      var st1 := if offer.state == CancelledBuy then st.(savedOffer := Some(offer), savedOfferSlot := event.slot) else st;
      if (offer.state == Bought || offer.state == Sold) && offer.quantitySold == 1 then
        st1.(tradesList := AddFlipTrade(host, st1.tradesList, TradeConstructor(offer, now)))
      else if offer.quantitySold > 0 && offer.state != Sold then
        st1.(tradesList := AddFlipTrade(host, st1.tradesList, TradeConstructor(offer, now)))
      else
        st1
  }

  /** The same cancelled-buy event delivered twice is handled once. */
  lemma RepeatedCancelHandledOnce(host: FlipHost, st: FlipState, event: OfferEvent,
                                  onLoginScreen: bool, now1: Instant, now2: Instant)
    requires event.offer.state == CancelledBuy
    ensures var once := OnOfferChanged(host, st, event, onLoginScreen, now1);
            OnOfferChanged(host, once, event, onLoginScreen, now2) == once
  {
    var once := OnOfferChanged(host, st, event, onLoginScreen, now1);
    if !IsIgnored(event, onLoginScreen) {
      assert IsRepeatedCancel(once, event);
    }
  }

  /** Every event keeps the trades list valid. */
  lemma OfferEventKeepsListValid(host: FlipHost, st: FlipState, event: OfferEvent,
                                 onLoginScreen: bool, now: Instant)
    requires ValidTradesList(st.tradesList)
    ensures ValidTradesList(OnOfferChanged(host, st, event, onLoginScreen, now).tradesList)
  {
    if !IsIgnored(event, onLoginScreen) && !IsRepeatedCancel(st, event) && IsRecorded(event.offer) {
      AddFlipTradeKeepsListValid(host, st.tradesList, TradeConstructor(event.offer, now));
    }
  }
}

=== FILE: inventory_setups.dfy ===
/**
 Inventory setups: a saved snapshot of inventory, equipment and rune-pouch
 slots, compared against live containers under configurable equivalence
 rules. This module covers the slot data, the normalisation of live
 containers, the item-equivalence scan used by the bank filter, the rune
 pouch placement rules applied when one slot of a setup is replaced, and
 the clamp applied to a typed quantity.

 The host's item tables are not modelled: canonicalisation, variation
 mapping, item names and the rune table are fields of `ItemHost`, so every
 property below holds for every such table.
 */
module InventorySetups {
  import opened Common

  const NUM_INVENTORY_ITEMS: nat := 28
  const NUM_EQUIPMENT_ITEMS: nat := 14
  /** Number of rune slots in the pouch (the two varbit arrays have length 3). */
  const RUNE_POUCH_SLOTS: nat := 3
  /** The host's item id of the rune pouch (ItemID.RUNE_POUCH). */
  const RUNE_POUCH: int := 12791

  /** One saved slot: item id, display name and quantity. */
  datatype SetupItem = SetupItem(id: int, name: string, quantity: int)

  /** The filler used for a slot that holds nothing. */
  const DUMMY: SetupItem := SetupItem(-1, "", 0)

  /** An item of a live host container. */
  datatype LiveItem = LiveItem(id: int, quantity: int)

  /** The two containers a setup snapshots. */
  datatype ContainerKind = Inventory | Equipment

  datatype Rune = Rune(itemId: int, name: string)

  /** Lookups the host client answers and this model leaves unspecified. */
  datatype ItemHost = ItemHost(
    canonicalize: int -> int,       // ItemManager.canonicalize
    variationMap: int -> int,       // ItemVariationMapping.map
    itemName: int -> string,        // item definition name
    runeOf: int -> Option<Rune>     // Runes.getRune
  )

  datatype InventorySetup = InventorySetup(
    inventory: seq<SetupItem>,
    equipment: seq<SetupItem>,
    runePouch: Option<seq<SetupItem>>,
    name: string,
    highlightColor: int,
    stackDifference: bool,
    variationDifference: bool,
    highlightDifference: bool,
    filterBank: bool,
    unorderedDifference: bool
  )

  function SlotCount(kind: ContainerKind): nat
  {
    match kind
    case Inventory => NUM_INVENTORY_ITEMS
    case Equipment => NUM_EQUIPMENT_ITEMS
  }

  /** The setup's list a slot of the given kind belongs to. */
  function ContainerOf(setup: InventorySetup, kind: ContainerKind): seq<SetupItem>
  {
    match kind
    case Inventory => setup.inventory
    case Equipment => setup.equipment
  }

  /** Whether a live container exists and has an item at index `i`. */
  predicate HasLiveItem(live: Option<seq<LiveItem>>, i: int)
  {
    live.Some? && 0 <= i < |live.value|
  }

  /** Pads (or cuts) a live container to the fixed slot count of its kind.
      A missing container, or a slot past the end of the live one, becomes
      the dummy slot. Names are only looked up on the client thread. */
  method NormalizedContainer(host: ItemHost, kind: ContainerKind, live: Option<seq<LiveItem>>, onClientThread: bool)
    returns (r: seq<SetupItem>)
    ensures |r| == SlotCount(kind)
    ensures forall i :: 0 <= i < |r| && !HasLiveItem(live, i) ==> r[i] == DUMMY
    ensures forall i :: 0 <= i < |r| && HasLiveItem(live, i) ==>
              r[i].id == live.value[i].id && r[i].quantity == live.value[i].quantity
    ensures forall i :: 0 <= i < |r| && HasLiveItem(live, i) ==>
              r[i].name == (if onClientThread then host.itemName(r[i].id) else "")
  {
    var size := SlotCount(kind);
    r := [];
    var i := 0;
    while i < size
      invariant 0 <= i <= size
      invariant |r| == i
      invariant forall k :: 0 <= k < i && !HasLiveItem(live, k) ==> r[k] == DUMMY
      invariant forall k :: 0 <= k < i && HasLiveItem(live, k) ==>
                  r[k].id == live.value[k].id && r[k].quantity == live.value[k].quantity
      invariant forall k :: 0 <= k < i && HasLiveItem(live, k) ==>
                  r[k].name == (if onClientThread then host.itemName(r[k].id) else "")
    {
      if live.None? || i >= |live.value| {
        r := r + [DUMMY];
      } else {
        var item := live.value[i];
        var name := "";
        if onClientThread {
          name := host.itemName(item.id);
        }
        r := r + [SetupItem(item.id, name, item.quantity)];
      }
      i := i + 1;
    }
  }

  /** Reads the three rune-pouch slots from the host's varbits. A rune id
      the rune table does not know yields the empty slot. */
  function RunePouchData(host: ItemHost, runeVars: seq<int>, amountVars: seq<int>): (r: seq<SetupItem>)
    requires |runeVars| == RUNE_POUCH_SLOTS && |amountVars| == RUNE_POUCH_SLOTS
    ensures |r| == RUNE_POUCH_SLOTS
    ensures forall i :: 0 <= i < |r| && host.runeOf(runeVars[i]).None? ==> r[i] == DUMMY
    ensures forall i :: 0 <= i < |r| && host.runeOf(runeVars[i]).Some? ==>
              r[i] == SetupItem(host.runeOf(runeVars[i]).value.itemId,
                                host.runeOf(runeVars[i]).value.name,
                                amountVars[i])
  {
    seq(RUNE_POUCH_SLOTS, i requires 0 <= i < RUNE_POUCH_SLOTS =>
      match host.runeOf(runeVars[i])
      case None => DUMMY
      case Some(rune) => SetupItem(rune.itemId, rune.name, amountVars[i]))
  }

  /** The id a saved slot is compared under: canonicalised only when asked,
      variation-mapped exactly when variation differences are not
      highlighted. */
  function CorrectId(host: ItemHost, variationDifference: bool, canonicalize: bool, itemId: int): (r: int)
    ensures !canonicalize && variationDifference ==> r == itemId
    ensures canonicalize && variationDifference ==> r == host.canonicalize(itemId)
    ensures !canonicalize && !variationDifference ==> r == host.variationMap(itemId)
    ensures canonicalize && !variationDifference ==> r == host.variationMap(host.canonicalize(itemId))
  {
    var id := if canonicalize then host.canonicalize(itemId) else itemId;
    if !variationDifference then host.variationMap(id) else id
  }

  /** Reference meaning of a container match: some slot's corrected id is the query. */
  ghost predicate SomeSlotMatches(host: ItemHost, itemId: int, container: seq<SetupItem>,
                                  variationDifference: bool, canonicalize: bool)
  {
    exists i :: 0 <= i < |container| && CorrectId(host, variationDifference, canonicalize, container[i].id) == itemId
  }

  /** The front-to-back scan over a container's slots. */
  function ContainerContainsItem(host: ItemHost, itemId: int, container: seq<SetupItem>,
                                 variationDifference: bool, canonicalize: bool): (found: bool)
    ensures found <==> SomeSlotMatches(host, itemId, container, variationDifference, canonicalize)
  {
    if |container| == 0 then false
    else if CorrectId(host, variationDifference, canonicalize, container[0].id) == itemId then
      true
    else
      var rest := ContainerContainsItem(host, itemId, container[1..], variationDifference, canonicalize);
      if rest then
        var j :| 0 <= j < |container[1..]| &&
                 CorrectId(host, variationDifference, canonicalize, container[1..][j].id) == itemId;
        assert container[j + 1] == container[1..][j];
        true
      else
        assert forall j :: 1 <= j < |container| ==> container[j] == container[1..][j - 1];
        false
  }

  /** Whether the bank filter shows `itemId` for this setup: the query is
      canonicalised, variation-mapped unless variation differences are
      highlighted, and then looked up in the rune pouch (whose slots are
      always variation-mapped), the inventory and the equipment. */
  function SetupContainsItem(host: ItemHost, setup: InventorySetup, itemId: int): (r: bool)
    ensures var q := CorrectId(host, setup.variationDifference, true, itemId);
            r <==> (|| (setup.runePouch.Some? && SomeSlotMatches(host, q, setup.runePouch.value, false, true))
                    || SomeSlotMatches(host, q, setup.inventory, setup.variationDifference, true)
                    || SomeSlotMatches(host, q, setup.equipment, setup.variationDifference, true))
  {
    var canonical := host.canonicalize(itemId);
    var query := if !setup.variationDifference then host.variationMap(canonical) else canonical;
    if setup.runePouch.Some? && ContainerContainsItem(host, query, setup.runePouch.value, false, true) then
      true
    else
      || ContainerContainsItem(host, query, setup.inventory, setup.variationDifference, true)
      || ContainerContainsItem(host, query, setup.equipment, setup.variationDifference, true)
  }

  /** Every item saved in the inventory or equipment of a setup passes
      that setup's bank filter, whatever the host's tables are. */
  lemma SavedItemPassesFilter(host: ItemHost, setup: InventorySetup, kind: ContainerKind, i: int)
    requires 0 <= i < |ContainerOf(setup, kind)|
    ensures SetupContainsItem(host, setup, ContainerOf(setup, kind)[i].id)
  {
    var q := CorrectId(host, setup.variationDifference, true, ContainerOf(setup, kind)[i].id);
    match kind
    case Inventory =>
      assert SomeSlotMatches(host, q, setup.inventory, setup.variationDifference, true);
    case Equipment =>
      assert SomeSlotMatches(host, q, setup.equipment, setup.variationDifference, true);
  }

  /** A rune in the pouch passes the bank filter when variation differences
      are not highlighted: then the query and the pouch slot are normalised
      the same way. */
  lemma PouchRunePassesFilter(host: ItemHost, setup: InventorySetup, i: int)
    requires setup.runePouch.Some? && 0 <= i < |setup.runePouch.value|
    requires !setup.variationDifference
    ensures SetupContainsItem(host, setup, setup.runePouch.value[i].id)
  {
    var q := CorrectId(host, false, true, setup.runePouch.value[i].id);
    assert SomeSlotMatches(host, q, setup.runePouch.value, false, true);
  }

  /** With variation differences highlighted, a pouch rune can miss the
      bank filter: the query is only canonicalised, while the pouch slot is
      variation-mapped too. Here item 5 is a variant of item 6. */
  lemma PouchRuneCanMissFilterWithVariations()
    ensures var host := ItemHost(x => x, x => if x == 5 then 6 else x, x => "", x => None);
            var setup := InventorySetup([], [], Some([SetupItem(5, "", 1)]), "", 0,
                                        false, true, false, true, false);
            !SetupContainsItem(host, setup, 5)
  {
  }

  /** A slot's item counts as a rune pouch when it variation-maps to one. */
  predicate IsRunePouch(host: ItemHost, item: SetupItem)
  {
    host.variationMap(item.id) == RUNE_POUCH
  }

  /** Outcome of the rune-pouch check: whether the slot update may proceed,
      and the setup with its rune pouch data adjusted. */
  datatype PouchUpdate = PouchUpdate(accepted: bool, setup: InventorySetup)

  /** The rune-pouch rules applied before `newItem` replaces `oldItem` in a
      slot of the given kind. A pouch may only go in the inventory, and
      only when the setup has none or the replaced item is the pouch; a
      pouch replaced by something else drops the pouch data. */
  function UpdateIfRunePouch(host: ItemHost, kind: ContainerKind, setup: InventorySetup,
                             oldItem: SetupItem, newItem: SetupItem, pouchData: seq<SetupItem>): (u: PouchUpdate)
    ensures u.accepted <==> !(IsRunePouch(host, newItem) &&
                              (kind != Inventory || (setup.runePouch.Some? && !IsRunePouch(host, oldItem))))
    ensures !u.accepted ==> u.setup == setup
    ensures u.setup == setup.(runePouch := u.setup.runePouch)
    ensures u.accepted && IsRunePouch(host, newItem) ==> u.setup.runePouch == Some(pouchData)
    ensures !IsRunePouch(host, newItem) && IsRunePouch(host, oldItem) ==> u.setup.runePouch == None
    ensures !IsRunePouch(host, newItem) && !IsRunePouch(host, oldItem) ==> u.setup == setup
  {
    if host.variationMap(newItem.id) == RUNE_POUCH then
      if kind != Inventory then
        PouchUpdate(false, setup)
      else if setup.runePouch.Some? && host.variationMap(oldItem.id) != RUNE_POUCH then
        PouchUpdate(false, setup)
      else
        PouchUpdate(true, setup.(runePouch := Some(pouchData)))
    else if host.variationMap(oldItem.id) == RUNE_POUCH then
      PouchUpdate(true, setup.(runePouch := None))
    else
      PouchUpdate(true, setup)
  }

  /** Replaces slot `index` of the given container of a setup. */
  function SetSlot(setup: InventorySetup, kind: ContainerKind, index: int, item: SetupItem): (r: InventorySetup)
    requires 0 <= index < |ContainerOf(setup, kind)|
    ensures |ContainerOf(r, kind)| == |ContainerOf(setup, kind)|
    ensures ContainerOf(r, kind)[index] == item
    ensures forall j :: 0 <= j < |ContainerOf(r, kind)| && j != index ==>
              ContainerOf(r, kind)[j] == ContainerOf(setup, kind)[j]
    ensures kind == Inventory ==> r.equipment == setup.equipment
    ensures kind == Equipment ==> r.inventory == setup.inventory
    ensures r == setup.(inventory := r.inventory, equipment := r.equipment)
  {
    match kind
    case Inventory => setup.(inventory := setup.inventory[index := item])
    case Equipment => setup.(equipment := setup.equipment[index := item])
  }

  /** One slot of the selected setup replaced by `newItem` (from the live
      container or from the item search), after the rune-pouch check. A
      rejected update leaves the setup as it was. */
  function ApplySlotUpdate(host: ItemHost, setup: InventorySetup, kind: ContainerKind, index: int,
                           newItem: SetupItem, pouchData: seq<SetupItem>): (r: InventorySetup)
    requires 0 <= index < |ContainerOf(setup, kind)|
    ensures |ContainerOf(r, kind)| == |ContainerOf(setup, kind)|
    ensures !UpdateIfRunePouch(host, kind, setup, ContainerOf(setup, kind)[index], newItem, pouchData).accepted ==>
              r == setup
    ensures var u := UpdateIfRunePouch(host, kind, setup, ContainerOf(setup, kind)[index], newItem, pouchData);
            u.accepted ==>
              && ContainerOf(r, kind)[index] == newItem
              && (forall j :: 0 <= j < |ContainerOf(r, kind)| && j != index ==>
                    ContainerOf(r, kind)[j] == ContainerOf(setup, kind)[j])
              && (kind == Inventory ==> r.equipment == setup.equipment)
              && (kind == Equipment ==> r.inventory == setup.inventory)
              && r.runePouch == u.setup.runePouch
              && r == setup.(inventory := r.inventory, equipment := r.equipment, runePouch := r.runePouch)
  {
    var u := UpdateIfRunePouch(host, kind, setup, ContainerOf(setup, kind)[index], newItem, pouchData);
    if !u.accepted then setup
    else SetSlot(u.setup, kind, index, newItem)
  }

  /** The consistency the rune-pouch rules maintain: the equipment holds no
      pouch, the inventory holds at most one, and the setup carries pouch
      data exactly when its inventory holds the pouch. */
  ghost predicate PouchConsistent(host: ItemHost, setup: InventorySetup)
  {
    && (forall j :: 0 <= j < |setup.equipment| ==> !IsRunePouch(host, setup.equipment[j]))
    && (forall j, k :: 0 <= j < k < |setup.inventory| && IsRunePouch(host, setup.inventory[j]) ==>
          !IsRunePouch(host, setup.inventory[k]))
    && (setup.runePouch.Some? <==> exists j :: 0 <= j < |setup.inventory| && IsRunePouch(host, setup.inventory[j]))
  }

  /** Every accepted or rejected slot update keeps a consistent setup consistent. */
  lemma SlotUpdatePreservesPouchConsistency(host: ItemHost, setup: InventorySetup, kind: ContainerKind,
                                            index: int, newItem: SetupItem, pouchData: seq<SetupItem>)
    requires 0 <= index < |ContainerOf(setup, kind)|
    requires PouchConsistent(host, setup)
    ensures PouchConsistent(host, ApplySlotUpdate(host, setup, kind, index, newItem, pouchData))
  {
    var oldItem := ContainerOf(setup, kind)[index];
    var u := UpdateIfRunePouch(host, kind, setup, oldItem, newItem, pouchData);
    var r := ApplySlotUpdate(host, setup, kind, index, newItem, pouchData);
    if !u.accepted {
      return;
    }
    assert r == SetSlot(u.setup, kind, index, newItem);
    match kind
    case Equipment =>
      assert !IsRunePouch(host, newItem);
      assert !IsRunePouch(host, oldItem);
      assert r.inventory == setup.inventory && r.runePouch == setup.runePouch;
      assert r.equipment == setup.equipment[index := newItem];
    case Inventory =>
      assert r.inventory == setup.inventory[index := newItem];
      assert r.equipment == setup.equipment;
      if IsRunePouch(host, newItem) {
        assert r.runePouch.Some?;
        // The old pouch, if any, sat at `index`: no other slot holds one.
        forall j | 0 <= j < |r.inventory| && j != index
          ensures !IsRunePouch(host, r.inventory[j])
        {
        }
        assert IsRunePouch(host, r.inventory[index]);
      } else if IsRunePouch(host, oldItem) {
        assert r.runePouch.None?;
        forall j | 0 <= j < |r.inventory|
          ensures !IsRunePouch(host, r.inventory[j])
        {
        }
      } else {
        assert r.runePouch == setup.runePouch;
        forall j | 0 <= j < |r.inventory|
          ensures IsRunePouch(host, r.inventory[j]) <==> IsRunePouch(host, setup.inventory[j])
        {
        }
      }
  }

  // ---------------------------------------------------------------------
  // Typed quantity for a stackable item chosen in the item search

  /** The longest prefix of the typed text that is parsed. */
  const MAX_QUANTITY_CHARS: nat := 10
  /** Long.MAX_VALUE */
  const LONG_MAX: int := 0x7fff_ffff_ffff_ffff

  predicate IsDigit(c: char)
  {
    '0' <= c <= '9'
  }

  predicate AllDigits(s: string)
  {
    forall i :: 0 <= i < |s| ==> IsDigit(s[i])
  }

  /** The decimal value of a string of ASCII digits. */
  function DigitsValue(s: string): nat
    requires AllDigits(s)
  {
    if |s| == 0 then 0
    else DigitsValue(s[..|s| - 1]) * 10 + (s[|s| - 1] as int - '0' as int)
  }

  function Pow10(k: nat): nat
  {
    if k == 0 then 1 else 10 * Pow10(k - 1)
  }

  /** Long.parseLong on decimal text: an optional sign followed by at least
      one digit, whose value fits in a long; anything else throws, which
      is `None` here. */
  function ParseLong(s: string): (r: Option<int>)
    ensures r.Some? ==> -LONG_MAX - 1 <= r.value <= LONG_MAX
    ensures AllDigits(s) && 0 < |s| && DigitsValue(s) <= LONG_MAX ==> r == Some(DigitsValue(s))
    ensures |s| == 0 ==> r.None?
  {
    if |s| == 0 then None
    else if (s[0] == '-' || s[0] == '+') && |s| > 1 && AllDigits(s[1..]) then
      var v: int := if s[0] == '-' then 0 - DigitsValue(s[1..]) as int else DigitsValue(s[1..]);
      if -LONG_MAX - 1 <= v <= LONG_MAX then Some(v) else None
    else if AllDigits(s) && DigitsValue(s) <= LONG_MAX then Some(DigitsValue(s))
    else None
  }

  /** The quantity stored for a parsed amount: the long is capped at
      Integer.MAX_VALUE, narrowed to an int, and raised to at least 1. A
      long below Integer.MIN_VALUE wraps around in the narrowing; the typed
      text never parses to one (`ParsedQuantityAboveIntMin`). */
  function ClampQuantity(q: int): (r: int)
    ensures 1 <= r <= INT_MAX
    ensures 1 <= q <= INT_MAX ==> r == q
    ensures q > INT_MAX ==> r == INT_MAX
    ensures INT_MIN <= q < 1 ==> r == 1
    ensures q < INT_MIN ==> r == 1 || (r - q) % TWO_TO_32 == 0
  {
    var capped := IntCast(if q < INT_MAX then q else INT_MAX);
    if capped > 1 then capped else 1
  }

  /** The text that is parsed: at most the first ten characters. */
  function TruncateInput(input: string): (t: string)
    ensures |t| <= MAX_QUANTITY_CHARS && |t| <= |input|
    ensures t == input[..|t|]
    ensures |input| <= MAX_QUANTITY_CHARS ==> t == input
    ensures |input| > MAX_QUANTITY_CHARS ==> |t| == MAX_QUANTITY_CHARS
  {
    if |input| > MAX_QUANTITY_CHARS then input[..MAX_QUANTITY_CHARS] else input
  }

  /** The quantity a typed amount becomes, or `None` when the text does
      not parse (the empty input, for one) and the slot is left as it was. */
  function TypedQuantity(input: string): (r: Option<int>)
    ensures r.Some? <==> ParseLong(TruncateInput(input)).Some?
    ensures r.Some? ==> 1 <= r.value <= INT_MAX
    ensures r.Some? && ParseLong(TruncateInput(input)).value <= 0 ==> r.value == 1
    ensures AllDigits(input) && |input| > 0 ==>
              && AllDigits(TruncateInput(input))
              && r.Some?
              && var v := DigitsValue(TruncateInput(input));
                 && (v == 0 ==> r.value == 1)
                 && (1 <= v <= INT_MAX ==> r.value == v)
                 && (v > INT_MAX ==> r.value == INT_MAX)
  {
    ParsedQuantityAboveIntMin(input);
    TruncatedDigitsFitLong(input);
    match ParseLong(TruncateInput(input))
    case None => None
    case Some(q) => Some(ClampQuantity(q))
  }

  /** Ten digits never overflow a long, so a digit-only input of any length
      always parses. */
  lemma {:induction false} DigitsValueBound(s: string)
    requires AllDigits(s)
    ensures DigitsValue(s) < Pow10(|s|)
  {
    if |s| > 0 {
      DigitsValueBound(s[..|s| - 1]);
    }
  }

  /** The parsed prefix of a digit-only input is digit-only and below
      10^10, well inside the long range. */
  lemma TruncatedDigitsFitLong(input: string)
    ensures AllDigits(input) ==>
              && AllDigits(TruncateInput(input))
              && DigitsValue(TruncateInput(input)) < 10_000_000_000 <= LONG_MAX
  {
    if AllDigits(input) {
      var t := TruncateInput(input);
      assert forall i :: 0 <= i < |t| ==> t[i] == input[i];
      DigitsValueBound(t);
      Pow10Monotone(|t|, MAX_QUANTITY_CHARS);
      assert Pow10(MAX_QUANTITY_CHARS) == 10_000_000_000;
    }
  }

  lemma DigitInputAlwaysParses(input: string)
    requires AllDigits(input) && |input| > 0
    ensures TypedQuantity(input).Some?
  {
    TruncatedDigitsFitLong(input);
  }

  /** At most ten characters parse to no less than -999,999,999, so the
      narrowing to an int never wraps around for typed text. */
  lemma ParsedQuantityAboveIntMin(input: string)
    ensures ParseLong(TruncateInput(input)).Some? ==> ParseLong(TruncateInput(input)).value >= -999_999_999
  {
    var t := TruncateInput(input);
    if ParseLong(t).Some? && |t| > 1 && t[0] == '-' && AllDigits(t[1..]) {
      DigitsValueBound(t[1..]);
      Pow10Monotone(|t| - 1, 9);
      assert Pow10(9) == 1_000_000_000;
    }
  }

  lemma {:induction false} Pow10Monotone(j: nat, k: nat)
    requires j <= k
    ensures Pow10(j) <= Pow10(k)
  {
    if j < k {
      Pow10Monotone(j, k - 1);
    }
  }

  /** The decimal text of a natural number, as typed by a user. */
  function DecimalString(n: nat): (s: string)
    ensures AllDigits(s) && |s| > 0
  {
    if n < 10 then ['0' + n as char]
    else DecimalString(n / 10) + ['0' + (n % 10) as char]
  }

  lemma {:induction false} DecimalStringValue(n: nat)
    ensures DigitsValue(DecimalString(n)) == n
  {
    var s := DecimalString(n);
    if n >= 10 {
      DecimalStringValue(n / 10);
      assert s[..|s| - 1] == DecimalString(n / 10);
    }
  }

  lemma {:induction false} DecimalStringLength(n: nat, k: nat)
    requires 1 <= k && n < Pow10(k)
    ensures |DecimalString(n)| <= k
  {
    if n >= 10 {
      assert Pow10(1) == 10;
      DecimalStringLength(n / 10, k - 1);
    }
  }

  /** Typing the decimal form of any storable quantity stores exactly it. */
  lemma TypedQuantityRoundTrip(q: int)
    requires 1 <= q <= INT_MAX
    ensures TypedQuantity(DecimalString(q)) == Some(q)
  {
    assert q < Pow10(MAX_QUANTITY_CHARS);
    DecimalStringLength(q, MAX_QUANTITY_CHARS);
    DecimalStringValue(q);
  }
}

=== FILE: setup_list.dfy ===
/**
 The list of saved inventory setups shown in the side panel: moving a setup
 one place up or down, filtering by name, and adding a setup, after which
 the list is sorted by name ignoring case.

 Case folding covers the ASCII letters only; see `LowerChar`.
 */
module SetupList {
  import opened InventorySetups

  // ---------------------------------------------------------------------
  // Reordering

  /** Collections.swap on a sequence. */
  function Swap<T>(s: seq<T>, i: int, j: int): (r: seq<T>)
    requires 0 <= i < |s| && 0 <= j < |s|
    ensures |r| == |s| && r[i] == s[j] && r[j] == s[i]
    ensures forall k :: 0 <= k < |s| && k != i && k != j ==> r[k] == s[k]
    ensures multiset(r) == multiset(s)
  {
    s[i := s[j]][j := s[i]]
  }

  /** Moves the setup at `index` one place towards the end; the last setup
      stays where it is. */
  function MoveSetupDown(setups: seq<InventorySetup>, index: int): (r: seq<InventorySetup>)
    requires 0 <= index < |setups|
    ensures |r| == |setups| && multiset(r) == multiset(setups)
    ensures index == |setups| - 1 ==> r == setups
    ensures index < |setups| - 1 ==>
              r[index] == setups[index + 1] && r[index + 1] == setups[index] &&
              forall k :: 0 <= k < |r| && k != index && k != index + 1 ==> r[k] == setups[k]
  {
    if index == |setups| - 1 then setups
    else Swap(setups, index, index + 1)
  }

  /** Moves the setup at `index` one place towards the front; the first
      setup stays where it is. */
  function MoveSetupUp(setups: seq<InventorySetup>, index: int): (r: seq<InventorySetup>)
    requires 0 <= index < |setups|
    ensures |r| == |setups| && multiset(r) == multiset(setups)
    ensures index == 0 ==> r == setups
    ensures index > 0 ==>
              r[index] == setups[index - 1] && r[index - 1] == setups[index] &&
              forall k :: 0 <= k < |r| && k != index && k != index - 1 ==> r[k] == setups[k]
  {
    if index == 0 then setups
    else Swap(setups, index, index - 1)
  }

  /** Moving a setup down and then moving it back up restores the list. */
  lemma MoveDownThenUp(setups: seq<InventorySetup>, index: int)
    requires 0 <= index < |setups| - 1
    ensures MoveSetupUp(MoveSetupDown(setups, index), index + 1) == setups
  {
    var r := MoveSetupUp(MoveSetupDown(setups, index), index + 1);
    assert forall k :: 0 <= k < |setups| ==> r[k] == setups[k];
  }

  // ---------------------------------------------------------------------
  // Case folding and substring search

  /** Lower-cases an ASCII capital letter and leaves every other character. */
  function LowerChar(c: char): (r: char)
    ensures 'A' <= c <= 'Z' ==> r as int == c as int + 32
    ensures !('A' <= c <= 'Z') ==> r == c
    ensures !('A' <= r <= 'Z')
  {
    if 'A' <= c <= 'Z' then (c as int + 32) as char else c
  }

  function ToLower(s: string): (r: string)
    ensures |r| == |s|
    ensures forall i :: 0 <= i < |s| ==> r[i] == LowerChar(s[i])
    ensures forall i :: 0 <= i < |r| ==> !('A' <= r[i] <= 'Z')
  {
    seq(|s|, i requires 0 <= i < |s| => LowerChar(s[i]))
  }

  /** Folding twice folds no further. */
  lemma ToLowerIdempotent(s: string)
    ensures ToLower(ToLower(s)) == ToLower(s)
  {
  }

  predicate OccursAt(hay: string, needle: string, i: nat)
  {
    i + |needle| <= |hay| && hay[i..i + |needle|] == needle
  }

  /** `needle` occurs at position `i` of `hay` or later: String.contains
      scans the positions from left to right. */
  predicate ContainsFrom(hay: string, needle: string, i: nat)
    requires i <= |hay|
    decreases |hay| - i
  {
    OccursAt(hay, needle, i) || (i < |hay| && ContainsFrom(hay, needle, i + 1))
  }

  /** String.contains */
  predicate Contains(hay: string, needle: string)
  {
    ContainsFrom(hay, needle, 0)
  }

  /** The scan succeeds exactly when the needle occurs at some position it
      covers. */
  lemma {:induction false} ContainsFromMeansOccurrence(hay: string, needle: string, i: nat)
    requires i <= |hay|
    ensures ContainsFrom(hay, needle, i) <==> exists j: nat | i <= j <= |hay| :: OccursAt(hay, needle, j)
    decreases |hay| - i
  {
    if i < |hay| {
      ContainsFromMeansOccurrence(hay, needle, i + 1);
      if exists j: nat | i <= j <= |hay| :: OccursAt(hay, needle, j) {
        var j: nat :| i <= j <= |hay| && OccursAt(hay, needle, j);
        if j > i {
          assert i + 1 <= j;
        }
      }
    }
  }

  lemma EmptyNeedle(hay: string)
    ensures Contains(hay, "")
  {
    assert OccursAt(hay, "", 0);
  }

  predicate NameMatches(setup: InventorySetup, filterText: string)
  {
    Contains(ToLower(setup.name), ToLower(filterText))
  }

  // ---------------------------------------------------------------------
  // Filtering

  /** The setups whose lower-cased name contains the lower-cased filter
      text, in their original order. */
  function FilterSetups(setups: seq<InventorySetup>, filterText: string): (r: seq<InventorySetup>)
    ensures |r| <= |setups|
    ensures forall k :: 0 <= k < |r| ==> NameMatches(r[k], filterText)
    ensures forall k :: 0 <= k < |setups| && NameMatches(setups[k], filterText) ==> setups[k] in r
    ensures forall x :: x in r ==> x in setups
  {
    if |setups| == 0 then []
    else
      var rest := FilterSetups(setups[1..], filterText);
      assert forall k :: 1 <= k < |setups| ==> setups[k] == setups[1..][k - 1];
      if NameMatches(setups[0], filterText) then [setups[0]] + rest else rest
  }

  /** The positions of the matching setups, in increasing order. */
  function MatchingIndices(setups: seq<InventorySetup>, filterText: string, from: nat): (idx: seq<nat>)
    requires from <= |setups|
    ensures forall k :: 0 <= k < |idx| ==> from <= idx[k] < |setups| && NameMatches(setups[idx[k]], filterText)
    ensures forall k, l :: 0 <= k < l < |idx| ==> idx[k] < idx[l]
    ensures forall j :: from <= j < |setups| && NameMatches(setups[j], filterText) ==> j in idx
    decreases |setups| - from
  {
    if from == |setups| then []
    else
      var rest := MatchingIndices(setups, filterText, from + 1);
      if NameMatches(setups[from], filterText) then [from] + rest else rest
  }

  /** The setups at the given positions, in the order the positions are listed. */
  function Pick(setups: seq<InventorySetup>, idx: seq<nat>): (r: seq<InventorySetup>)
    requires forall k :: 0 <= k < |idx| ==> idx[k] < |setups|
    ensures |r| == |idx| && forall k :: 0 <= k < |idx| ==> r[k] == setups[idx[k]]
  {
    if |idx| == 0 then [] else [setups[idx[0]]] + Pick(setups, idx[1..])
  }

  /** The filtered list is exactly the matching setups taken at their
      positions in increasing order: nothing matching is dropped, nothing
      else is kept, and the order of the saved list is kept. */
  lemma {:induction false} FilterIsOrderedSelection(setups: seq<InventorySetup>, filterText: string, from: nat)
    requires from <= |setups|
    ensures FilterSetups(setups[from..], filterText) == Pick(setups, MatchingIndices(setups, filterText, from))
    decreases |setups| - from
  {
    if from < |setups| {
      FilterIsOrderedSelection(setups, filterText, from + 1);
      var idx := MatchingIndices(setups, filterText, from);
      var restIdx := MatchingIndices(setups, filterText, from + 1);
      var rest := FilterSetups(setups[from + 1..], filterText);
      assert setups[from..][1..] == setups[from + 1..];
      if NameMatches(setups[from], filterText) {
        assert idx == [from] + restIdx;
        assert idx[1..] == restIdx;
        assert FilterSetups(setups[from..], filterText) == [setups[from]] + rest;
      } else {
        assert idx == restIdx;
        assert FilterSetups(setups[from..], filterText) == rest;
      }
    }
  }

  /** An empty filter keeps every setup. */
  lemma {:induction false} EmptyFilterKeepsAll(setups: seq<InventorySetup>)
    ensures FilterSetups(setups, "") == setups
  {
    if |setups| > 0 {
      EmptyFilterKeepsAll(setups[1..]);
      EmptyNeedle(ToLower(setups[0].name));
      assert ToLower("") == "";
    }
  }

  // ---------------------------------------------------------------------
  // Ordering by name, ignoring case

  /** String.compareToIgnoreCase: the difference of the first pair of
      characters that differ after folding, else the difference of the
      lengths. */
  function CompareIgnoreCase(a: string, b: string): (c: int)
    ensures c == 0 <==> ToLower(a) == ToLower(b)
    decreases |a|
  {
    if |a| == 0 || |b| == 0 then |a| - |b|
    else if LowerChar(a[0]) != LowerChar(b[0]) then
      assert ToLower(a)[0] != ToLower(b)[0];
      LowerChar(a[0]) as int - LowerChar(b[0]) as int
    else
      assert ToLower(a) == [LowerChar(a[0])] + ToLower(a[1..]);
      assert ToLower(b) == [LowerChar(b[0])] + ToLower(b[1..]);
      CompareIgnoreCase(a[1..], b[1..])
  }

  predicate NameLeq(a: InventorySetup, b: InventorySetup)
  {
    CompareIgnoreCase(a.name, b.name) <= 0
  }

  lemma {:induction false} CompareAntisymmetric(a: string, b: string)
    ensures CompareIgnoreCase(a, b) == -CompareIgnoreCase(b, a)
    decreases |a|
  {
    if |a| > 0 && |b| > 0 && LowerChar(a[0]) == LowerChar(b[0]) {
      CompareAntisymmetric(a[1..], b[1..]);
    }
  }

  lemma {:induction false} CompareTransitive(a: string, b: string, c: string)
    requires CompareIgnoreCase(a, b) <= 0 && CompareIgnoreCase(b, c) <= 0
    ensures CompareIgnoreCase(a, c) <= 0
    decreases |a|
  {
    if |a| > 0 && |b| > 0 && |c| > 0
       && LowerChar(a[0]) == LowerChar(b[0]) && LowerChar(b[0]) == LowerChar(c[0]) {
      CompareTransitive(a[1..], b[1..], c[1..]);
    }
  }

  /** Every two positions are in name order. */
  ghost predicate SortedByName(s: seq<InventorySetup>)
  {
    forall i, j :: 0 <= i < j < |s| ==> NameLeq(s[i], s[j])
  }

  /** Places `x` after every setup whose name does not sort after its own. */
  function InsertByName(x: InventorySetup, s: seq<InventorySetup>): (r: seq<InventorySetup>)
    ensures |r| == |s| + 1
    ensures multiset(r) == multiset(s) + multiset{x}
  {
    if |s| == 0 then [x]
    else if CompareIgnoreCase(x.name, s[0].name) < 0 then [x] + s
    else
      assert s == [s[0]] + s[1..];
      [s[0]] + InsertByName(x, s[1..])
  }

  /** Inserting into a sorted list keeps it sorted. */
  lemma {:induction false} InsertKeepsSorted(x: InventorySetup, s: seq<InventorySetup>)
    requires SortedByName(s)
    ensures SortedByName(InsertByName(x, s))
  {
    var r := InsertByName(x, s);
    if |s| == 0 {
    } else if CompareIgnoreCase(x.name, s[0].name) < 0 {
      forall j | 1 <= j < |r|
        ensures NameLeq(x, r[j])
      {
        if j > 1 {
          CompareTransitive(x.name, s[0].name, r[j].name);
        }
      }
    } else {
      var rest := InsertByName(x, s[1..]);
      assert SortedByName(s[1..]);
      InsertKeepsSorted(x, s[1..]);
      CompareAntisymmetric(x.name, s[0].name);
      assert s == [s[0]] + s[1..];
      forall j | 1 <= j < |r|
        ensures NameLeq(s[0], r[j])
      {
        assert r[j] == rest[j - 1];
        assert r[j] in multiset(rest);
        if r[j] != x {
          assert r[j] in multiset(s[1..]);
          var k :| 0 <= k < |s[1..]| && s[1..][k] == r[j];
          assert s[k + 1] == r[j];
        }
      }
    }
  }

  /** Stable insertion sort by name, ignoring case. */
  function SortByName(s: seq<InventorySetup>): (r: seq<InventorySetup>)
    ensures |r| == |s|
    ensures multiset(r) == multiset(s)
    ensures SortedByName(r)
  {
    if |s| == 0 then []
    else
      assert s == s[..|s| - 1] + [s[|s| - 1]];
      var sortedPrefix := SortByName(s[..|s| - 1]);
      InsertKeepsSorted(s[|s| - 1], sortedPrefix);
      InsertByName(s[|s| - 1], sortedPrefix)
  }

  /** Adds a new setup and re-sorts the whole list by name, ignoring case. */
  function AddSetup(setups: seq<InventorySetup>, newSetup: InventorySetup): (r: seq<InventorySetup>)
    ensures |r| == |setups| + 1
    ensures multiset(r) == multiset(setups) + multiset{newSetup}
    ensures newSetup in r && forall x :: x in setups ==> x in r
    ensures SortedByName(r)
  {
    var r := SortByName(setups + [newSetup]);
    assert multiset(setups + [newSetup]) == multiset(setups) + multiset{newSetup};
    assert newSetup in multiset(r);
    forall x | x in setups
      ensures x in r
    {
      assert x in multiset(setups);
      assert x in multiset(r);
    }
    r
  }
}

=== FILE: skills_tab.dfy ===
/**
 Skills tab progress bars: the table from the skills tab's widget ids to
 skills, and the per-skill progress towards the next level kept in a map
 from skill to a ratio.

 The experience table is the `xpFor` parameter (Experience.getXpForLevel);
 the progress ratio is a `real`, not an IEEE double.
 */
module SkillsTab {
  import opened Common

  /** The host's skills, in their declaration order. */
  datatype Skill =
    | Attack | Defence | Strength | Hitpoints | Ranged | Prayer | Magic | Cooking
    | Woodcutting | Fletching | Fishing | Firemaking | Crafting | Smithing | Mining
    | Herblore | Agility | Thieving | Slayer | Farming | Runecraft | Hunter
    | Construction | Overall

  /** Skill.values() */
  const ALL_SKILLS: seq<Skill> := [
    Attack, Defence, Strength, Hitpoints, Ranged, Prayer, Magic, Cooking,
    Woodcutting, Fletching, Fishing, Firemaking, Crafting, Smithing, Mining,
    Herblore, Agility, Thieving, Slayer, Farming, Runecraft, Hunter,
    Construction, Overall]

  /** The first and last widget ids of the skills tab's skill entries. */
  const FIRST_SKILL_WIDGET: int := 20971521
  const LAST_SKILL_WIDGET: int := 20971544

  /** Experience.MAX_REAL_LEVEL */
  const MAX_REAL_LEVEL: int := 99

  /** The position of a skill in declaration order (Enum.ordinal). */
  function Ordinal(skill: Skill): (k: nat)
    ensures k < |ALL_SKILLS| && ALL_SKILLS[k] == skill
  {
    match skill
    case Attack => 0 case Defence => 1 case Strength => 2 case Hitpoints => 3
    case Ranged => 4 case Prayer => 5 case Magic => 6 case Cooking => 7
    case Woodcutting => 8 case Fletching => 9 case Fishing => 10 case Firemaking => 11
    case Crafting => 12 case Smithing => 13 case Mining => 14 case Herblore => 15
    case Agility => 16 case Thieving => 17 case Slayer => 18 case Farming => 19
    case Runecraft => 20 case Hunter => 21 case Construction => 22 case Overall => 23
  }

  lemma AllSkillsListsEverySkillOnce()
    ensures |ALL_SKILLS| == 24
    ensures forall j, k :: 0 <= j < k < |ALL_SKILLS| ==> ALL_SKILLS[j] != ALL_SKILLS[k]
  {
  }

  /** The widget id of a skill's entry in the skills tab. */
  function WidgetIdOf(skill: Skill): (id: int)
    ensures FIRST_SKILL_WIDGET <= id <= LAST_SKILL_WIDGET
  {
    match skill
    case Attack => 20971521
    case Strength => 20971522
    case Defence => 20971523
    case Ranged => 20971524
    case Prayer => 20971525
    case Magic => 20971526
    case Runecraft => 20971527
    case Construction => 20971528
    case Hitpoints => 20971529
    case Agility => 20971530
    case Herblore => 20971531
    case Thieving => 20971532
    case Crafting => 20971533
    case Fletching => 20971534
    case Slayer => 20971535
    case Hunter => 20971536
    case Mining => 20971537
    case Smithing => 20971538
    case Fishing => 20971539
    case Cooking => 20971540
    case Firemaking => 20971541
    case Woodcutting => 20971542
    case Farming => 20971543
    case Overall => 20971544
  }

  /** The skill whose skills-tab entry has the given widget id; None for
      any other widget (the side stone, for one). */
  function SkillFromWidgetId(widgetId: int): (r: Option<Skill>)
    ensures r.Some? <==> FIRST_SKILL_WIDGET <= widgetId <= LAST_SKILL_WIDGET
    ensures r.Some? ==> WidgetIdOf(r.value) == widgetId
  {
    match widgetId
    case 20971521 => Some(Attack)
    case 20971522 => Some(Strength)
    case 20971523 => Some(Defence)
    case 20971524 => Some(Ranged)
    case 20971525 => Some(Prayer)
    case 20971526 => Some(Magic)
    case 20971527 => Some(Runecraft)
    case 20971528 => Some(Construction)
    case 20971529 => Some(Hitpoints)
    case 20971530 => Some(Agility)
    case 20971531 => Some(Herblore)
    case 20971532 => Some(Thieving)
    case 20971533 => Some(Crafting)
    case 20971534 => Some(Fletching)
    case 20971535 => Some(Slayer)
    case 20971536 => Some(Hunter)
    case 20971537 => Some(Mining)
    case 20971538 => Some(Smithing)
    case 20971539 => Some(Fishing)
    case 20971540 => Some(Cooking)
    case 20971541 => Some(Firemaking)
    case 20971542 => Some(Woodcutting)
    case 20971543 => Some(Farming)
    case 20971544 => Some(Overall)
    case _ => None
  }

  /** Every skill has exactly one widget id, so the 24 ids map to 24
      distinct skills. */
  lemma WidgetTableIsBijective(skill: Skill, a: int, b: int)
    ensures SkillFromWidgetId(WidgetIdOf(skill)) == Some(skill)
    ensures SkillFromWidgetId(a).Some? && SkillFromWidgetId(a) == SkillFromWidgetId(b) ==> a == b
  {
    if SkillFromWidgetId(a).Some? && SkillFromWidgetId(a) == SkillFromWidgetId(b) {
      assert a == WidgetIdOf(SkillFromWidgetId(a).value);
    }
  }

  lemma OnlyLastWidgetIsOverall(widgetId: int)
    ensures SkillFromWidgetId(widgetId) == Some(Overall) <==> widgetId == LAST_SKILL_WIDGET
  {
  }

  // ---------------------------------------------------------------------
  // Progress to the next level

  /** The experience table grows strictly over the levels the progress
      computation reads. */
  ghost predicate XpTableIncreasing(xpFor: int -> int)
  {
    forall level :: 1 <= level < MAX_REAL_LEVEL ==> xpFor(level) < xpFor(level + 1)
  }

  /** The fraction of the way from the current level to the next; 1 for a
      level outside 1..98. */
  function ProgressToLevel(xpFor: int -> int, xp: int, level: int): (p: real)
    requires XpTableIncreasing(xpFor)
    ensures level <= 0 || level >= MAX_REAL_LEVEL ==> p == 1.0
    ensures 0 < level < MAX_REAL_LEVEL ==>
              p * (xpFor(level + 1) - xpFor(level)) as real == (xp - xpFor(level)) as real
    ensures 0 < level < MAX_REAL_LEVEL && xpFor(level) <= xp < xpFor(level + 1) ==> 0.0 <= p < 1.0
  {
    if 0 < level < MAX_REAL_LEVEL then
      var base := xpFor(level);
      var span := (xpFor(level + 1) - base) as real;
      assert span > 0.0;
      (xp - base) as real / span
    else
      1.0
  }

  /** Stores the progress of one skill; every other entry is kept. */
  function StoreProgress(xpFor: int -> int, progress: map<Skill, real>, skill: Skill, xp: int, level: int)
    : (m: map<Skill, real>)
    requires XpTableIncreasing(xpFor)
    ensures m.Keys == progress.Keys + {skill}
    ensures m[skill] == ProgressToLevel(xpFor, xp, level)
    ensures forall s :: s in progress && s != skill ==> m[s] == progress[s]
  {
    progress[skill := ProgressToLevel(xpFor, xp, level)]
  }

  /** Stores the progress of every skill but the total level, whose entry
      is left as it was. */
  method StoreProgressForAllSkills(xpFor: int -> int, progress: map<Skill, real>,
                                   xpOf: Skill -> int, levelOf: Skill -> int)
    returns (m: map<Skill, real>)
    requires XpTableIncreasing(xpFor)
    ensures forall s :: s != Overall ==> s in m && m[s] == ProgressToLevel(xpFor, xpOf(s), levelOf(s))
    ensures Overall in m <==> Overall in progress
    ensures Overall in progress ==> m[Overall] == progress[Overall]
  {
    AllSkillsListsEverySkillOnce();
    m := progress;
    var i := 0;
    while i < |ALL_SKILLS|
      invariant 0 <= i <= |ALL_SKILLS|
      invariant forall k :: 0 <= k < i && ALL_SKILLS[k] != Overall ==>
                  ALL_SKILLS[k] in m && m[ALL_SKILLS[k]] == ProgressToLevel(xpFor, xpOf(ALL_SKILLS[k]), levelOf(ALL_SKILLS[k]))
      invariant Overall in m <==> Overall in progress
      invariant Overall in progress ==> m[Overall] == progress[Overall]
    {
      var skill := ALL_SKILLS[i];
      if skill != Overall {
        m := StoreProgress(xpFor, m, skill, xpOf(skill), levelOf(skill));
      }
      i := i + 1;
    }
    forall s | s != Overall
      ensures s in m && m[s] == ProgressToLevel(xpFor, xpOf(s), levelOf(s))
    {
      assert ALL_SKILLS[Ordinal(s)] == s;
    }
  }
}
